=== FILE: README.md ===
# Task lifecycle engine — a Dafny model

This project models the core of a small file-upload front end. A user picks a
file, the component validates it and asks a simulated backend to start a task,
and a polling hook keeps querying that task until it finishes, fails or is
cancelled. Transient query failures are retried with a counter bounded by 3.

The program runs on a single-threaded event loop. The model therefore treats
every timer callback, settled promise and click as one atomic event over an
immutable `Session`:

- `tasks`: the task list;
- `error`: the component's error message;
- `driver`: the polling hook, holding the registry of running intervals, the
  scheduled one-shot retries, and the poll steps waiting on a query;
- `backend`: the backend store and its scheduled completion timers.

`Math.random()` and `Date.now()` become event parameters.

Modules, one per source component:

- `Wrappers`: `Option` and `Result` (a settled promise).
- `Tasks`: the task list, its first-match lookup, and the two list updates the
  program writes (`prev.map(...)` with a new status or a new retry count).
- `MockApi`: the backend store with `startMockUpload`, the completion
  callback, `getTaskStatus` and `cancelMockTask`.
- `Polling`: `startPolling`, the poll step, `cancelPolling` and the unmount
  cleanup. A poll step is split at its `await`. `Poll` runs the liveness check
  and issues the query; the backend's answer is fixed at that moment, because
  the promise executor runs synchronously. `Settle` applies the answer later
  and does not check the task again.
- `FileUpload`: `validateFile`, the file-change handler and `cancelTask`.
- `Lifecycle`: the event type, the step and run functions, an invariant
  proved over arbitrary event sequences, and lemmas about particular event
  sequences (the retry chain, a stale answer after a cancel).

The intended behaviour is a bounded retry of transient failures: a
rejected query is retried up to 3 times, a successful answer resets the
count, a task that runs out of retries ends `failed` with a count of 3, a
backend `failed` ends the task at once, and no task leaves a terminal
status (`success`, `failed`, `cancelled`). The code does not do all of this, and the model follows the
code:

- The retry count is never reset by a successful query (`Settle`).
- A "Task failed" rejection and a "Task not found" rejection take the same
  retry path as a network error. On a task the backend marked failed, an
  uninterrupted retry chain takes four queries and ends `failed` with 3
  retries (`Lifecycle.BackendFailureRunsWholeChain`).
- A rejection below the maximum does not stop the interval, and every tick
  polls with counter 0. A rejected tick therefore writes a retry count of 1
  and starts a second chain beside the first. With a 3000 ms interval and
  a 2000 ms retry delay, ticks fall inside a four-query chain, so a task
  that runs out of retries need not end with a count of 3. With a tick
  between the third and fourth query it ends `failed` with 1 retry
  (`Lifecycle.TickDuringChainResetsRetries`).
- The liveness check runs only before the query is issued, so a terminal
  status is not final. A waiting query that carries `pending` turns a task
  back to `pending` whatever terminal status it has
  (`Lifecycle.StaleAnswerRevertsTerminal`). A query issued before a cancel
  and settled after it overwrites `cancelled`
  (`Lifecycle.StaleAnswerOverwritesCancel`). Two overlapping queries that
  settle in reverse order overwrite `success`: the newer one sets it and
  unregisters the id, the older one sets `pending` again, and nothing
  polls the task after that (`Lifecycle.StaleAnswerRevertsSuccess`). A
  `failed` task is overwritten the same way. The simulated backend answers
  in the next microtask, before any click or timer can run, so all of this
  takes a backend that answers later than that; the handler code gives no
  protection against it. Ticks, retries and every other event leave a
  terminal task terminal (`Lifecycle.TerminalStaysUnlessSettled`), and a
  cancelled one cancelled (`Lifecycle.CancelledStaysUnlessSettled`).
- `cancelMockTask` never clears the record's timer field. It therefore forces
  even a completed record to `failed` (`MockApi.CancelOverwritesCompleted`,
  `MockApi.CancelAfterSuccess`).
- Task ids are `task_` followed by the clock reading. They are unique exactly
  when the clock readings differ (`MockApi.TaskIdAtInjective`). A second
  upload in the same millisecond overwrites the first record.
- The backend never writes `processing`, and no task ever shows it
  (`Lifecycle.Inv`).

## Model

| member | source | states |
|---|---|---|
| `Tasks.FindIndex` | src/hooks/usePolling.ts:19 | returns the index of the first task with the id, none earlier has it, and `None` exactly when no task has it |
| `Tasks.IsLiveIff` | src/hooks/usePolling.ts:19-23 | the poll step continues exactly when the first task with the id exists and is not `success`, `failed` or `cancelled` |
| `Tasks.WithStatus` | src/hooks/usePolling.ts:32-34 | same length, order, ids and file names; every task with the id gets the status and keeps its retry count; every other task is unchanged |
| `Tasks.WithRetries` | src/hooks/usePolling.ts:43-47 | same length, order, ids and file names; every task with the id gets the retry count and keeps its status; every other task is unchanged |
| `Tasks.FindIndexFirst` | src/hooks/usePolling.ts:19 | the lookup returns index `i` if and only if `i` is the first position holding the id |
| `Tasks.FindIndexSameShape` | src/hooks/usePolling.ts:19 | the lookup depends only on the ids, so a list update finds the same task before and after |
| `MockApi.StartMockUpload` | src/services/mockApi.ts:17-35 | the returned id is `task_<now>`; a pending record with an armed timer is stored under it; a completion timer for it is scheduled; every other record and timer is unchanged; the store invariant is kept |
| `MockApi.TaskIdAtInjective` | src/services/mockApi.ts:19 | two uploads get the same id if and only if they read the same clock value |
| `MockApi.Complete` | src/services/mockApi.ts:13-28 | a scheduled completion sets its record to exactly `success` or `failed`, with `failed` iff the draw exceeds 0.8; the timer is consumed; every other record is unchanged; a cleared or fired timer does nothing |
| `MockApi.GetTaskStatus` | src/services/mockApi.ts:37-55 | an unknown id rejects with not-found; a network error iff the id is known and the draw is below 0.1; task-failed iff the stored status is `failed`; otherwise resolves with the stored status, which is never `failed` |
| `MockApi.FailedRecordAlwaysRejects` | src/services/mockApi.ts:46-50 | a record marked `failed` yields a rejection for every draw |
| `MockApi.CancelMockTask` | src/services/mockApi.ts:57-63 | an unknown id or a record without a timer changes nothing; otherwise that record becomes `failed`, its timer is cleared, and every other record is unchanged |
| `MockApi.CancelMockTaskIdempotent` | src/services/mockApi.ts:57-63 | cancelling twice gives the same store as cancelling once |
| `MockApi.CancelOverwritesCompleted` | src/services/mockApi.ts:57-62 | in every valid store a cancel forces any known record to `failed`, including one already completed |
| `MockApi.CancelAfterSuccess` | src/services/mockApi.ts:26-62 | a record whose completion wrote `success` is turned to `failed` by a later cancel |
| `Polling.StartPolling` | src/hooks/usePolling.ts:58-59 | registers the id, leaves every other id's registration as it was, and leaves retries and waiting queries alone |
| `Polling.Poll` | src/hooks/usePolling.ts:18-30 | on an absent or terminal task: no query is issued and the id leaves the registry; otherwise exactly one query, carrying the backend's answer, is issued and the registry is unchanged; the task list is never written |
| `Polling.Tick` | src/hooks/usePolling.ts:18-58 | an interval tick polls with counter 0: for a live task it issues one query with the backend's answer and keeps every registration; otherwise it unregisters that id only and issues nothing |
| `Polling.FireRetry` | src/hooks/usePolling.ts:42 | a fired retry leaves the pending set and polls with its own counter |
| `Polling.Settle` | src/hooks/usePolling.ts:32-54 | a resolved answer changes only the status of the tasks with the id; `success`/`failed` unregister the id, `pending` keeps the registry. A rejection below 3 sets retries to counter+1, keeps the status and schedules exactly one retry with counter+1. A rejection at 3 forces `failed`, keeps retries and unregisters. Other tasks are unchanged |
| `Polling.CancelPolling` | src/hooks/usePolling.ts:62-65 | removes exactly that id from the registry |
| `Polling.CancelPollingIdempotent` | src/hooks/usePolling.ts:62-65 | two calls give the same state as one |
| `Polling.Teardown` | src/hooks/usePolling.ts:67-71 | no interval remains registered; scheduled retries and waiting queries are untouched |
| `FileUpload.StartsWith` | src/components/FileUpload.tsx:15 | true iff the prefix is at most as long as the string and equals its leading slice |
| `FileUpload.ValidateFile` | src/components/FileUpload.tsx:13-18 | true iff the type is `application/pdf` or begins with `image/`, and the size is below 2097152 |
| `FileUpload.AfterStart` | src/components/FileUpload.tsx:31-44 | a resolved start appends exactly one task (`pending`, 0 retries, the file's name) at the end and starts polling it; a rejected start adds nothing and sets the start-failure message |
| `FileUpload.HandleFileChange` | src/components/FileUpload.tsx:20-45 | no file: nothing changes; an invalid file: no task, no backend change, the validation message is set; a valid file: the error is cleared, one pending task with the new id is appended, the id is polled, and the backend is exactly the one `startMockUpload` leaves: a pending record with a scheduled completion timer under the new id, every other record unchanged |
| `FileUpload.CancelTask` | src/components/FileUpload.tsx:47-53 | every task with the id becomes `cancelled` with its other fields kept; other tasks are unchanged; the id leaves the registry; the backend cancel is applied |
| `FileUpload.CancelTaskIdempotent` | src/components/FileUpload.tsx:47-53 | cancelling twice gives the same session as cancelling once |
| `Lifecycle.Step` | src/components/FileUpload.tsx:40-52 | no event removes, reorders or renames a task; only a file selection appends one, at the end (the other writes to the list are the `map`s at src/hooks/usePolling.ts:33, 45 and 50 and src/components/FileUpload.tsx:50-52) |
| `Lifecycle.Run` | src/hooks/usePolling.ts:32-53 | a run of events only appends tasks, at most one per event: the polling writes at lines 33, 45 and 50 and the cancel write at src/components/FileUpload.tsx:50-52 map the list in place, and only the upload at src/components/FileUpload.tsx:40 appends |
| `Lifecycle.StepPreservesInv` | src/hooks/usePolling.ts:41-50 | every event keeps the invariant: valid store, retries at most 3, no `processing` task, retry counters in 1..3, waiting queries with counter at most 3 whose answers are `pending` or `success` |
| `Lifecycle.RunPreservesInv` | src/hooks/usePolling.ts:41-50 | the invariant holds after any sequence of events |
| `Lifecycle.RunFromInitial` | src/services/mockApi.ts:3-28 | from the initial state, no task's retry count exceeds 3 and every backend record is `pending`, `success` or `failed` |
| `Lifecycle.OnlyCancelWritesCancelled` | src/hooks/usePolling.ts:33-50 | no event but the cancel click makes a task `cancelled` |
| `Lifecycle.CancelledStaysUnlessSettled` | src/hooks/usePolling.ts:19-27 | every event except the settling of an issued query leaves a cancelled task cancelled |
| `Lifecycle.TerminalStaysUnlessSettled` | src/hooks/usePolling.ts:19-27 | every event except the settling of an issued query leaves a `success`, `failed` or `cancelled` task in a terminal status |
| `Lifecycle.StaleAnswerRevertsTerminal` | src/hooks/usePolling.ts:30-34 | settling a waiting query that carries `pending` sets every task with its id to `pending`, whatever its status, and leaves the registry as it was |
| `Lifecycle.UploadThenTick` | src/hooks/usePolling.ts:18-30 | after an upload and a tick with a network coin of at least 0.1, one query carrying `pending` waits and the task is pending with 0 retries |
| `Lifecycle.CompletionThenTick` | src/services/mockApi.ts:26-28 | the completion timer with a coin of at most 0.8 writes `success`, and the next tick issues a query carrying `success` and leaves the task list alone |
| `Lifecycle.TwoQueriesAcrossCompletion` | src/hooks/usePolling.ts:18-30 | upload, tick, completion, tick: two queries wait for the same task, the older carrying `pending` and the newer `success` |
| `Lifecycle.StaleAnswerRevertsSuccess` | src/hooks/usePolling.ts:30-39 | settling the newer query sets the task to `success` and unregisters the id; settling the older one then sets it back to `pending`, with no interval, retry or query left for its id |
| `Lifecycle.NoQueryForFinishedTask` | src/hooks/usePolling.ts:19-27 | a tick or retry for an absent or finished task issues no query, writes no task and unregisters the id |
| `Lifecycle.QuietStep` | src/hooks/usePolling.ts:17-65 | an id with no interval, no scheduled retry and no waiting query stays so under every event except an upload that produces the same id |
| `Lifecycle.QuietRun` | src/hooks/usePolling.ts:17-65 | the same over any run that contains no upload at the same clock reading |
| `Lifecycle.CancelBeforeFirstTick` | src/components/FileUpload.tsx:47-53 | if no interval, retry or query refers to the new id before the upload, then a task cancelled right after its upload, before its first tick, never has a query issued for it, whatever events follow, unless a later upload reuses its clock reading |
| `Lifecycle.StaleAnswerOverwritesCancel` | src/hooks/usePolling.ts:30-34 | upload, tick, cancel, then the settling of the tick's query turns the cancelled task back to `pending` |
| `Lifecycle.SettleFailedBelow` | src/hooks/usePolling.ts:40-47 | whatever the task's status, a rejected query with counter below 3 sets the first matching task's retries to counter+1, keeps its status, keeps the interval registered, and schedules the retry with counter+1 |
| `Lifecycle.SettleFailedAtMax` | src/hooks/usePolling.ts:48-53 | a rejected query with counter 3 sets the first matching task to `failed`, keeps its retry count, and unregisters the id |
| `Lifecycle.FailingStage` | src/hooks/usePolling.ts:40-53 | one poll plus a rejected settle moves a retry chain from stage k to k+1, keeping the interval registered and trading the fired retry for the next one, or ends it at `failed` at stage 3 |
| `Lifecycle.FailingChain` | src/hooks/usePolling.ts:41-53 | an uninterrupted chain (no tick between its queries) whose every query rejects ends with the task `failed` and unregistered; started from a tick, its retry count is exactly 3 |
| `Lifecycle.BackendFailureRunsWholeChain` | src/hooks/usePolling.ts:40-53 | on a task the backend marked failed, an uninterrupted chain takes four queries (eight events) and ends `failed` with 3 retries |
| `Lifecycle.FailingPrefix` | src/hooks/usePolling.ts:40-47 | on a task the backend marked failed, the stages of a chain below the maximum leave the interval registered and the next retry scheduled |
| `Lifecycle.TickThenLastRetry` | src/hooks/usePolling.ts:40-58 | with the interval registered and the last retry scheduled, a rejected tick writes a retry count of 1 and the last retry then forces `failed` without touching it |
| `Lifecycle.TickDuringChainResetsRetries` | src/hooks/usePolling.ts:40-58 | on a task the backend marked failed, stages 0, 1, 2, then a tick of the still-registered interval, then the last retry: the task ends `failed` and unregistered with 1 retry, not 3 |
| `Lifecycle.FirstQuerySucceeds` | src/hooks/usePolling.ts:30-39 | a first query that finds `success` sets the task to `success`, keeps its retry count and unregisters the id |

## Left out

- React mechanics are not modelled: `useState`, `useRef`, `useEffect`, render batching, and the task-list mirror kept in sync by an effect (src/hooks/usePolling.ts:12-15). Every event reads the latest task list.
- Wall-clock time is not modelled: the 3000 ms interval, the 2000 ms retry delay and the 5–10 s completion delay. Events may come in any order, so the model admits interleavings that real timing would exclude. In particular, a query may settle arbitrarily late, although in the program it settles in the next microtask.
- The file-change handler runs as one atomic event. Its `await` of `startMockUpload` settles in a microtask, before any timer can fire.
- `Math.random()` and `Date.now()` are parameters: `Draw` values in [0, 1) and a natural clock reading. Draws are exact reals compared with the exact 0.1 and 0.8, while the program compares doubles with the doubles nearest 0.1 and 0.8. On double-valued draws the two agree except at one: the double nearest 0.8 lies slightly above 0.8, so at that draw the program's `randomStatus` gives `success` where `MockApi.RandomStatus` gives `failed`.
- Polling registry: the registry is a set of ids. In the program, calling `startPolling` again for a still-registered id overwrites its entry and leaks the earlier interval. The model keeps one entry per id.
- Unmount: the cleanup clears the intervals but leaves the registry entries in place; the model drops both, since a cleared interval never fires again. State updates after unmount are ignored by React, whereas the model keeps applying retries and settles to the task list.
- The completion callback for an id missing from the store would throw. No valid store has such a timer. The model just drops that timer.
- src/components/TaskList.tsx and all JSX are rendering only. Their one use here is the cancel button's guard (status `pending` or `processing`), which enables the cancel event.
- Browser `File` and `ChangeEvent` objects are reduced to a name, a MIME type and a size.
- src/types.ts is not part of this model. The task record's fields (id, file name, status, retry count) follow their uses in the other files.

=== FILE: file_upload.dfy ===
/** The upload component: file validation, the task-creation path of the
    file-change handler, and the cancel handler. Its state is kept together
    with the backend store in one `Session`. */
module FileUpload {
  import opened Wrappers
  import opened Tasks
  import opened MockApi
  import opened Polling

  /** The parts of a browser `File` the component reads. */
  datatype File = File(name: string, mime: string, size: nat)

  const MaxSize: nat := 2 * 1024 * 1024
  const InvalidFileMessage: string := "Only PDFs or images under 2MB are allowed."
  const StartFailedMessage: string := "Failed to start upload."

  /** The component's `tasks` and `error`, the polling hook, and the backend. */
  datatype Session = Session(tasks: seq<Task>, error: Option<string>, driver: Driver, backend: Backend)

  /** `String.prototype.startsWith`, compared character by character. */
  function StartsWith(s: string, prefix: string): (r: bool)
    ensures r <==> |prefix| <= |s| && s[..|prefix|] == prefix
  {
    |prefix| == 0 || (|s| > 0 && s[0] == prefix[0] && StartsWith(s[1..], prefix[1..]))
  }

  /** `validateFile`: a PDF or any image type, strictly under 2 MiB. */
  function ValidateFile(f: File): (ok: bool)
    ensures ok <==> (f.mime == "application/pdf" || (6 <= |f.mime| && f.mime[..6] == "image/"))
                    && f.size < 2097152
  {
    (f.mime == "application/pdf" || StartsWith(f.mime, "image/")) && f.size < MaxSize
  }

  /** The file-change handler after `startMockUpload` settles; `started` is
      the id it resolved with, or `None` had it rejected. */
  function AfterStart(s: Session, f: File, started: Option<string>): (r: Session)
    ensures r.backend == s.backend
    ensures started.None? ==>
              r.tasks == s.tasks && r.driver == s.driver && r.error == Some(StartFailedMessage)
    ensures started.Some? ==>
              && |r.tasks| == |s.tasks| + 1 && r.tasks[..|s.tasks|] == s.tasks
              && r.tasks[|s.tasks|] == Task(started.value, f.name, Pending, 0)
              && r.driver.active == s.driver.active + {started.value}
              && r.driver.retries == s.driver.retries && r.driver.inflight == s.driver.inflight
              && r.error == s.error
  {
    match started
    case None => s.(error := Some(StartFailedMessage))
    case Some(id) =>
      s.(tasks := s.tasks + [Task(id, f.name, Pending, 0)], driver := StartPolling(s.driver, id))
  }

  /** `handleFileChange` with the file the input holds (if any) and the clock
      reading the backend turns into the new id. `startMockUpload` always
      resolves, so a valid file always yields a task. */
  function HandleFileChange(s: Session, file: Option<File>, now: nat): (r: Session)
    ensures file.None? ==> r == s
    ensures file.Some? && !ValidateFile(file.value) ==>
              && r.tasks == s.tasks && r.driver == s.driver && r.backend == s.backend
              && r.error == Some(InvalidFileMessage)
    ensures file.Some? && ValidateFile(file.value) ==>
              var id := TaskIdAt(now);
              && |r.tasks| == |s.tasks| + 1 && r.tasks[..|s.tasks|] == s.tasks
              && r.tasks[|s.tasks|] == Task(id, file.value.name, Pending, 0)
              && r.driver.active == s.driver.active + {id}
              && r.driver.retries == s.driver.retries && r.driver.inflight == s.driver.inflight
              && r.error == None
              && id in r.backend.records && r.backend.records[id].status == Pending
    ensures file.Some? && ValidateFile(file.value) ==>
              && r.backend == StartMockUpload(s.backend, now).backend
              && (forall other :: other in s.backend.records && other != TaskIdAt(now) ==>
                    other in r.backend.records && r.backend.records[other] == s.backend.records[other])
  {
    match file
    case None => s
    case Some(f) =>
      if !ValidateFile(f) then s.(error := Some(InvalidFileMessage))
      else
        var started := StartMockUpload(s.backend, now);
        AfterStart(s.(error := None, backend := started.backend), f, Some(started.taskId))
  }

  /** `cancelTask`: backend cancel, stop polling, mark every task with the id
      cancelled. */
  function CancelTask(s: Session, id: string): (r: Session)
    ensures SameShape(s.tasks, r.tasks) && OthersUnchanged(s.tasks, r.tasks, id)
    ensures forall i :: 0 <= i < |s.tasks| && s.tasks[i].id == id ==>
              r.tasks[i].status == Cancelled && r.tasks[i].retries == s.tasks[i].retries
    ensures id !in r.driver.active && r.driver.active == s.driver.active - {id}
    ensures r.driver.retries == s.driver.retries && r.driver.inflight == s.driver.inflight
    ensures r.backend == CancelMockTask(s.backend, id)
    ensures r.error == s.error
  {
    Session(WithStatus(s.tasks, id, Cancelled), s.error,
            CancelPolling(s.driver, id), CancelMockTask(s.backend, id))
  }

  /** Cancelling twice is cancelling once. */
  lemma CancelTaskIdempotent(s: Session, id: string)
    ensures CancelTask(CancelTask(s, id), id) == CancelTask(s, id)
  {
    WithStatusIdempotent(s.tasks, id, Cancelled);
    CancelMockTaskIdempotent(s.backend, id);
  }
}

=== FILE: lifecycle.dfy ===
/** The whole system as an event-driven state machine. Every timer callback,
    settled promise and click is one atomic event over a `Session`; an event
    that cannot happen in a state (a cleared interval, a retry not
    scheduled, a hidden cancel button) leaves the state as it is. */
module Lifecycle {
  import opened Wrappers
  import opened Tasks
  import opened MockApi
  import opened Polling
  import opened FileUpload

  datatype Event =
    | FileSelected(file: Option<File>, now: nat)   // the file input changes
    | IntervalFires(id: string, draw: Draw)         // the recurring poll interval of `id`
    | RetryFires(retry: Retry, draw: Draw)          // a scheduled one-shot retry
    | QuerySettles(query: Query)                    // a suspended poll step resumes
    | CompletionFires(handle: Handle, draw: Draw)   // the backend's completion timer
    | CancelClicked(id: string)                     // the cancel button of a task
    | Unmount                                       // the component is torn down

  /** Nothing uploaded, nothing polled, an empty store. */
  const Initial := Session([], None, Idle, Empty)

  /** The task list renders a cancel button only for a pending or processing task. */
  predicate CancelShown(tasks: seq<Task>, id: string) {
    exists i :: 0 <= i < |tasks| && tasks[i].id == id
                && (tasks[i].status == Pending || tasks[i].status == Processing)
  }

  predicate Enabled(s: Session, e: Event) {
    match e
    case FileSelected(_, _) => true
    case IntervalFires(id, _) => id in s.driver.active
    case RetryFires(rt, _) => rt in s.driver.retries
    case QuerySettles(q) => q in s.driver.inflight
    case CompletionFires(h, _) => h in s.backend.timers
    case CancelClicked(id) => CancelShown(s.tasks, id)
    case Unmount => true
  }

  /** One event. Tasks are never removed or reordered and their ids and file
      names never change; only a file selection can add one, at the end. */
  function Step(s: Session, e: Event): (r: Session)
    ensures |r.tasks| >= |s.tasks| && SameShape(s.tasks, r.tasks[..|s.tasks|])
    ensures !e.FileSelected? ==> |r.tasks| == |s.tasks|
    ensures |r.tasks| <= |s.tasks| + 1
  {
    if !Enabled(s, e) then s
    else match e
      case FileSelected(f, now) => HandleFileChange(s, f, now)
      case IntervalFires(id, draw) => s.(driver := Tick(s.tasks, s.driver, s.backend, id, draw))
      case RetryFires(rt, draw) => s.(driver := FireRetry(s.tasks, s.driver, s.backend, rt, draw))
      case QuerySettles(q) =>
        var p := Settle(s.tasks, s.driver, q);
        s.(tasks := p.tasks, driver := p.driver)
      case CompletionFires(h, draw) => s.(backend := Complete(s.backend, h, draw))
      case CancelClicked(id) => CancelTask(s, id)
      case Unmount => s.(driver := Teardown(s.driver))
  }

  /** The events in order. Like each step, a run only appends tasks. */
  function Run(s: Session, es: seq<Event>): (r: Session)
    ensures |s.tasks| <= |r.tasks| <= |s.tasks| + |es|
    ensures SameShape(s.tasks, r.tasks[..|s.tasks|])
    decreases |es|
  {
    if |es| == 0 then s
    else
      var next := Step(s, es[0]);
      var r := Run(next, es[1..]);
      assert r.tasks[..|s.tasks|] == r.tasks[..|next.tasks|][..|s.tasks|];
      r
  }

  lemma RunTwo(s: Session, e1: Event, e2: Event)
    ensures Run(s, [e1, e2]) == Step(Step(s, e1), e2)
  {
    var s1 := Step(s, e1);
    assert [e1, e2][1..] == [e2];
    assert Run(s, [e1, e2]) == Run(s1, [e2]);
    assert [e2][1..] == [];
    assert Run(s1, [e2]) == Run(Step(s1, e2), []);
  }

  lemma RunThree(s: Session, e1: Event, e2: Event, e3: Event)
    ensures Run(s, [e1, e2, e3]) == Step(Step(Step(s, e1), e2), e3)
  {
    assert [e1, e2, e3] == [e1] + [e2, e3];
    RunAppend(s, [e1], [e2, e3]);
    assert Run(s, [e1]) == Run(Step(s, e1), []);
    RunTwo(Step(s, e1), e2, e3);
  }

  /** The step of a poll event with counter `k`, unfolded. */
  lemma StepPoll(s: Session, id: string, k: nat, draw: Draw)
    requires k == 0 ==> id in s.driver.active
    requires k > 0 ==> Retry(id, k) in s.driver.retries
    ensures var e := if k == 0 then IntervalFires(id, draw) else RetryFires(Retry(id, k), draw);
            var d := if k == 0 then s.driver else s.driver.(retries := s.driver.retries - multiset{Retry(id, k)});
            Step(s, e) == s.(driver := Poll(s.tasks, d, s.backend, id, k, draw))
  {
  }

  /** The step of a file selection, unfolded. */
  lemma StepFile(s: Session, f: Option<File>, now: nat)
    ensures Step(s, FileSelected(f, now)) == HandleFileChange(s, f, now)
  {
  }

  /** The step of a cancel click, unfolded. */
  lemma StepCancel(s: Session, id: string)
    requires CancelShown(s.tasks, id)
    ensures Step(s, CancelClicked(id)) == CancelTask(s, id)
  {
  }

  /** The step of a settling query, unfolded. */
  lemma StepSettle(s: Session, q: Query)
    requires q in s.driver.inflight
    ensures var p := Settle(s.tasks, s.driver, q);
            Step(s, QuerySettles(q)) == s.(tasks := p.tasks, driver := p.driver)
  {
  }

  lemma {:induction false} RunAppend(s: Session, a: seq<Event>, b: seq<Event>)
    ensures Run(s, a + b) == Run(Run(s, a), b)
    decreases |a|
  {
    if |a| == 0 {
      assert a + b == b;
    } else {
      assert (a + b)[1..] == a[1..] + b;
      RunAppend(Step(s, a[0]), a[1..], b);
    }
  }

  /** What holds in every reachable session: the store is well formed, no
      task shows `processing` or more than three retries, every scheduled
      retry carries a counter in 1..3, and every suspended query a counter
      of at most 3 and, when resolved, a status the backend reported
      (`pending` or `success`). */
  ghost predicate Inv(s: Session) {
    && Valid(s.backend)
    && (forall i :: 0 <= i < |s.tasks| ==>
          s.tasks[i].retries <= MaxRetries && s.tasks[i].status != Processing)
    && (forall rt :: rt in s.driver.retries ==> 1 <= rt.count <= MaxRetries)
    && (forall q :: q in s.driver.inflight ==>
          && q.count <= MaxRetries
          && (q.answer.Ok? ==> q.answer.value == Pending || q.answer.value == Success))
  }

  lemma InitialInv()
    ensures Inv(Initial)
  {
    EmptyValid();
  }

  lemma InvHandleFileChange(s: Session, f: Option<File>, now: nat)
    requires Inv(s)
    ensures Inv(HandleFileChange(s, f, now))
  {
  }

  lemma InvFileSelected(s: Session, f: Option<File>, now: nat)
    requires Inv(s)
    ensures Inv(Step(s, FileSelected(f, now)))
  {
    StepFile(s, f, now);
    InvHandleFileChange(s, f, now);
  }

  lemma InvPoll(s: Session, id: string, k: nat, draw: Draw)
    requires Inv(s) && k <= MaxRetries
    requires k == 0 ==> id in s.driver.active
    requires k > 0 ==> Retry(id, k) in s.driver.retries
    ensures var e := if k == 0 then IntervalFires(id, draw) else RetryFires(Retry(id, k), draw);
            Inv(Step(s, e))
  {
    StepPoll(s, id, k, draw);
  }

  lemma InvSettle(s: Session, q: Query)
    requires Inv(s) && q in s.driver.inflight
    ensures Inv(Step(s, QuerySettles(q)))
  {
    StepSettle(s, q);
  }

  lemma InvCancelTask(s: Session, id: string)
    requires Inv(s)
    ensures Inv(CancelTask(s, id))
  {
  }

  lemma InvCancel(s: Session, id: string)
    requires Inv(s) && CancelShown(s.tasks, id)
    ensures Inv(Step(s, CancelClicked(id)))
  {
    StepCancel(s, id);
    InvCancelTask(s, id);
  }

  lemma StepPreservesInv(s: Session, e: Event)
    requires Inv(s)
    ensures Inv(Step(s, e))
  {
    if Enabled(s, e) {
      match e
      case FileSelected(f, now) => InvFileSelected(s, f, now);
      case IntervalFires(id, draw) => InvPoll(s, id, 0, draw);
      case RetryFires(rt, draw) =>
        if rt.count == 0 {
          assert false;
        }
        InvPoll(s, rt.id, rt.count, draw);
      case QuerySettles(q) => InvSettle(s, q);
      case CompletionFires(h, draw) =>
      case CancelClicked(id) => InvCancel(s, id);
      case Unmount =>
    }
  }

  lemma {:induction false} RunPreservesInv(s: Session, es: seq<Event>)
    requires Inv(s)
    ensures Inv(Run(s, es))
    decreases |es|
  {
    if |es| > 0 {
      StepPreservesInv(s, es[0]);
      RunPreservesInv(Step(s, es[0]), es[1..]);
    }
  }

  /** Along every run from the initial session, no task's retry count passes
      3 and the backend only ever holds `pending`, `success` or `failed`. */
  lemma RunFromInitial(es: seq<Event>)
    ensures var s := Run(Initial, es);
            && (forall i :: 0 <= i < |s.tasks| ==> s.tasks[i].retries <= MaxRetries)
            && (forall id :: id in s.backend.records ==> Reported(s.backend.records[id].status))
  {
    InitialInv();
    RunPreservesInv(Initial, es);
  }

  /** Only the cancel click writes `cancelled`: no other event makes a task
      cancelled that was not, and a new task starts pending. */
  lemma OnlyCancelWritesCancelled(s: Session, e: Event)
    requires !e.CancelClicked?
    ensures var r := Step(s, e);
            forall i :: 0 <= i < |r.tasks| && r.tasks[i].status == Cancelled ==>
              i < |s.tasks| && s.tasks[i].status == Cancelled
  {
  }

  /** The liveness check protects a cancelled task from ticks and retries:
      every event except the settling of an already issued query leaves a
      cancelled task cancelled. */
  lemma CancelledStaysUnlessSettled(s: Session, e: Event)
    requires !e.QuerySettles?
    ensures var r := Step(s, e);
            forall i :: 0 <= i < |s.tasks| && s.tasks[i].status == Cancelled ==>
              r.tasks[i].status == Cancelled
  {
    var r := Step(s, e);
    if Enabled(s, e) && e.FileSelected? && e.file.Some? && ValidateFile(e.file.value) {
      assert forall i :: 0 <= i < |s.tasks| ==> r.tasks[i] == r.tasks[..|s.tasks|][i];
    }
  }

  /** The same protection for every terminal status: every event except the
      settling of an already issued query leaves a `success`, `failed` or
      `cancelled` task terminal. */
  lemma TerminalStaysUnlessSettled(s: Session, e: Event)
    requires !e.QuerySettles?
    ensures var r := Step(s, e);
            forall i :: 0 <= i < |s.tasks| && IsTerminal(s.tasks[i].status) ==>
              IsTerminal(r.tasks[i].status)
  {
    var r := Step(s, e);
    if Enabled(s, e) && e.FileSelected? && e.file.Some? && ValidateFile(e.file.value) {
      assert forall i :: 0 <= i < |s.tasks| ==> r.tasks[i] == r.tasks[..|s.tasks|][i];
    }
  }

  /** A settle does not check the task again: a waiting query that carries
      `pending` turns any task with its id back to `pending`, whatever
      terminal status it had, and leaves the registry as it was. */
  lemma StaleAnswerRevertsTerminal(s: Session, id: string, k: nat)
    requires Query(id, k, Ok(Pending)) in s.driver.inflight
    ensures var r := Step(s, QuerySettles(Query(id, k, Ok(Pending))));
            && (forall i :: 0 <= i < |s.tasks| && s.tasks[i].id == id ==> r.tasks[i].status == Pending)
            && r.driver.active == s.driver.active
  {
    StepSettle(s, Query(id, k, Ok(Pending)));
  }

  /** A poll step that finds its task absent or finished issues no query,
      leaves the task list alone and unregisters the id, so no interval of a
      finished task keeps querying. */
  lemma NoQueryForFinishedTask(s: Session, e: Event)
    requires (e.IntervalFires? || e.RetryFires?) && Enabled(s, e)
    requires var id := if e.IntervalFires? then e.id else e.retry.id;
             (forall i :: 0 <= i < |s.tasks| ==> s.tasks[i].id != id)
             || (exists i :: 0 <= i < |s.tasks| && s.tasks[i].id == id && IsTerminal(s.tasks[i].status)
                             && forall j :: 0 <= j < i ==> s.tasks[j].id != id)
    ensures var r := Step(s, e);
            var id := if e.IntervalFires? then e.id else e.retry.id;
            r.tasks == s.tasks && r.driver.inflight == s.driver.inflight && id !in r.driver.active
  {
    var id := if e.IntervalFires? then e.id else e.retry.id;
    IsLiveIff(s.tasks, id);
    assert !IsLive(s.tasks, id);
    if e.IntervalFires? {
      StepPoll(s, id, 0, e.draw);
    } else if e.retry.count == 0 {
      assert Step(s, e) == s.(driver := FireRetry(s.tasks, s.driver, s.backend, e.retry, e.draw));
    } else {
      StepPoll(s, id, e.retry.count, e.draw);
    }
  }

  /** A query issued before the cancel click and settling after it writes
      its answer over `cancelled`: the update after the `await` does not
      check the task again. */
  lemma StaleAnswerOverwritesCancel(f: File, now: nat, draw: Draw)
    requires ValidateFile(f) && draw >= 0.1
    ensures var id := TaskIdAt(now);
            var es := [FileSelected(Some(f), now), IntervalFires(id, draw), CancelClicked(id)];
            var cancelled := Run(Initial, es);
            var q := Query(id, 0, Ok(Pending));
            && cancelled.tasks[0].status == Cancelled
            && q in cancelled.driver.inflight
            && Step(cancelled, QuerySettles(q)).tasks[0].status == Pending
  {
    var id := TaskIdAt(now);
    StepFile(Initial, Some(f), now);
    var s1 := HandleFileChange(Initial, Some(f), now);
    assert s1.tasks == [Task(id, f.name, Pending, 0)];
    assert IsLive(s1.tasks, id);
    assert GetTaskStatus(s1.backend, id, draw) == Ok(Pending);
    StepPoll(s1, id, 0, draw);
    var s2 := Step(s1, IntervalFires(id, draw));
    var q := Query(id, 0, Ok(Pending));
    assert q in s2.driver.inflight && s2.tasks == s1.tasks;
    assert CancelShown(s2.tasks, id);
    StepCancel(s2, id);
    var s3 := CancelTask(s2, id);
    assert s3.tasks[0].status == Cancelled && q in s3.driver.inflight;
    RunThree(Initial, FileSelected(Some(f), now), IntervalFires(id, draw), CancelClicked(id));
    StepSettle(s3, q);
  }

  /** Upload, then a tick whose query finds the new record pending. */
  lemma UploadThenTick(f: File, now: nat, d1: Draw)
    requires ValidateFile(f) && d1 >= 0.1
    ensures var id := TaskIdAt(now);
            var s := Run(Initial, [FileSelected(Some(f), now), IntervalFires(id, d1)]);
            && s.tasks == [Task(id, f.name, Pending, 0)]
            && id in s.driver.active && s.driver.retries == multiset{}
            && s.driver.inflight == multiset{Query(id, 0, Ok(Pending))}
            && s.backend.timers == map[1 := id] && id in s.backend.records
  {
    var id := TaskIdAt(now);
    StepFile(Initial, Some(f), now);
    var s1 := HandleFileChange(Initial, Some(f), now);
    assert s1.tasks == [Task(id, f.name, Pending, 0)];
    assert s1.backend.timers == map[1 := id];
    assert IsLive(s1.tasks, id);
    assert GetTaskStatus(s1.backend, id, d1) == Ok(Pending);
    StepPoll(s1, id, 0, d1);
    RunTwo(Initial, FileSelected(Some(f), now), IntervalFires(id, d1));
  }

  /** The completion timer writes `success`, and the next tick's query
      finds it. */
  lemma CompletionThenTick(s: Session, id: string, d2: Draw, d3: Draw)
    requires IsLive(s.tasks, id) && id in s.driver.active
    requires 1 in s.backend.timers && s.backend.timers[1] == id && id in s.backend.records
    requires d2 <= 0.8 && d3 >= 0.1
    ensures var r := Step(Step(s, CompletionFires(1, d2)), IntervalFires(id, d3));
            && r.tasks == s.tasks && r.driver.retries == s.driver.retries
            && r.driver.inflight == s.driver.inflight + multiset{Query(id, 0, Ok(Success))}
  {
    var s3 := Step(s, CompletionFires(1, d2));
    assert s3 == s.(backend := Complete(s.backend, 1, d2));
    assert s3.backend.records[id].status == Success;
    assert GetTaskStatus(s3.backend, id, d3) == Ok(Success);
    StepPoll(s3, id, 0, d3);
  }

  /** Upload and a tick whose query finds the record pending, then the
      completion timer writing `success` and a second tick whose query finds
      it: two queries wait, the older one carrying the outdated `pending`. */
  lemma TwoQueriesAcrossCompletion(f: File, now: nat, d1: Draw, d2: Draw, d3: Draw)
    requires ValidateFile(f) && d1 >= 0.1 && d2 <= 0.8 && d3 >= 0.1
    ensures var id := TaskIdAt(now);
            var s := Run(Run(Initial, [FileSelected(Some(f), now), IntervalFires(id, d1)]),
                         [CompletionFires(1, d2), IntervalFires(id, d3)]);
            && s.tasks == [Task(id, f.name, Pending, 0)]
            && s.driver.retries == multiset{}
            && s.driver.inflight == multiset{Query(id, 0, Ok(Pending)), Query(id, 0, Ok(Success))}
  {
    var id := TaskIdAt(now);
    var first := [FileSelected(Some(f), now), IntervalFires(id, d1)];
    UploadThenTick(f, now, d1);
    var s2 := Run(Initial, first);
    assert IsLive(s2.tasks, id);
    CompletionThenTick(s2, id, d2, d3);
    RunTwo(s2, CompletionFires(1, d2), IntervalFires(id, d3));
  }

  /** The older answer settling last undoes `success`: the newer query sets
      the task to `success` and unregisters the id, then the outdated
      `pending` answer sets it back to `pending`, with nothing left that
      would ever poll it again. */
  lemma StaleAnswerRevertsSuccess(f: File, now: nat, d1: Draw, d2: Draw, d3: Draw)
    requires ValidateFile(f) && d1 >= 0.1 && d2 <= 0.8 && d3 >= 0.1
    ensures var id := TaskIdAt(now);
            var s := Run(Run(Initial, [FileSelected(Some(f), now), IntervalFires(id, d1)]),
                         [CompletionFires(1, d2), IntervalFires(id, d3)]);
            var done := Step(s, QuerySettles(Query(id, 0, Ok(Success))));
            var r := Step(done, QuerySettles(Query(id, 0, Ok(Pending))));
            && done.tasks[0].status == Success && id !in done.driver.active
            && r.tasks[0].status == Pending && Quiet(r, id)
  {
    var id := TaskIdAt(now);
    TwoQueriesAcrossCompletion(f, now, d1, d2, d3);
    var s := Run(Run(Initial, [FileSelected(Some(f), now), IntervalFires(id, d1)]),
                 [CompletionFires(1, d2), IntervalFires(id, d3)]);
    var newer, stale := Query(id, 0, Ok(Success)), Query(id, 0, Ok(Pending));
    StepSettle(s, newer);
    var done := Step(s, QuerySettles(newer));
    assert done.driver.inflight == multiset{stale};
    StepSettle(done, stale);
  }

  /** Nothing of the driver refers to `id`: no interval, no scheduled
      retry, no waiting query. */
  ghost predicate Quiet(s: Session, id: string) {
    && id !in s.driver.active
    && (forall rt :: rt in s.driver.retries ==> rt.id != id)
    && (forall q :: q in s.driver.inflight ==> q.id != id)
  }

  lemma QuietTick(s: Session, x: string, draw: Draw, id: string)
    requires Quiet(s, id) && x in s.driver.active
    ensures Quiet(Step(s, IntervalFires(x, draw)), id)
  {
    StepPoll(s, x, 0, draw);
  }

  lemma QuietRetry(s: Session, rt: Retry, draw: Draw, id: string)
    requires Quiet(s, id) && rt in s.driver.retries
    ensures Quiet(Step(s, RetryFires(rt, draw)), id)
  {
    assert Step(s, RetryFires(rt, draw)) == s.(driver := FireRetry(s.tasks, s.driver, s.backend, rt, draw));
  }

  lemma QuietSettle(s: Session, q: Query, id: string)
    requires Quiet(s, id) && q in s.driver.inflight
    ensures Quiet(Step(s, QuerySettles(q)), id)
  {
    StepSettle(s, q);
  }

  /** Once quiet, an id stays quiet (no query is ever issued for it) until
      an upload produces that same id again. */
  lemma QuietStep(s: Session, e: Event, id: string)
    requires Quiet(s, id)
    requires !(e.FileSelected? && TaskIdAt(e.now) == id)
    ensures Quiet(Step(s, e), id)
  {
    if Enabled(s, e) {
      if e.IntervalFires? {
        QuietTick(s, e.id, e.draw, id);
      } else if e.RetryFires? {
        QuietRetry(s, e.retry, e.draw, id);
      } else if e.QuerySettles? {
        QuietSettle(s, e.query, id);
      }
    }
  }

  lemma {:induction false} QuietRun(s: Session, es: seq<Event>, now: nat)
    requires Quiet(s, TaskIdAt(now))
    requires forall k :: 0 <= k < |es| ==> !(es[k].FileSelected? && es[k].now == now)
    ensures Quiet(Run(s, es), TaskIdAt(now))
    decreases |es|
  {
    if |es| > 0 {
      TaskIdAtInjective(if es[0].FileSelected? then es[0].now else now, now);
      QuietStep(s, es[0], TaskIdAt(now));
      QuietRun(Step(s, es[0]), es[1..], now);
    }
  }

  /** A task cancelled right after its upload, before its first tick, never
      gets a backend query: whatever events follow, none polls its id,
      unless a later upload reads the same clock value and so reuses it. */
  lemma CancelBeforeFirstTick(s: Session, f: File, now: nat, es: seq<Event>)
    requires ValidateFile(f) && Quiet(s, TaskIdAt(now))
    requires forall k :: 0 <= k < |es| ==> !(es[k].FileSelected? && es[k].now == now)
    ensures Quiet(Run(s, [FileSelected(Some(f), now), CancelClicked(TaskIdAt(now))] + es), TaskIdAt(now))
  {
    var id := TaskIdAt(now);
    StepFile(s, Some(f), now);
    var s1 := HandleFileChange(s, Some(f), now);
    assert s1.tasks[|s.tasks|].id == id && s1.tasks[|s.tasks|].status == Pending;
    assert CancelShown(s1.tasks, id);
    StepCancel(s1, id);
    var s2 := CancelTask(s1, id);
    assert Quiet(s2, id);
    RunTwo(s, FileSelected(Some(f), now), CancelClicked(id));
    RunAppend(s, [FileSelected(Some(f), now), CancelClicked(id)], es);
    QuietRun(s2, es, now);
  }

  /** The two events of stage `k` of one retry chain: the poll with counter
      `k` (the interval's tick at 0, a one-shot retry above) and the settling
      of the query it issues. */
  function StageEvents(b: Backend, id: string, k: nat, draw: Draw): seq<Event> {
    [ if k == 0 then IntervalFires(id, draw) else RetryFires(Retry(id, k), draw),
      QuerySettles(Query(id, k, GetTaskStatus(b, id, draw))) ]
  }

  /** Where stage `k` can start: the lookup finds task `i`, which is not
      terminal, and the poll with counter `k` is armed. */
  predicate AtStage(s: Session, id: string, i: nat, k: nat) {
    && FirstWith(s.tasks, id, i)
    && !IsTerminal(s.tasks[i].status)
    && (k == 0 ==> id in s.driver.active)
    && (k > 0 ==> Retry(id, k) in s.driver.retries)
  }

  /** The poll of stage `k` issues its query and writes nothing else. */
  lemma StagePoll(s: Session, id: string, i: nat, k: nat, draw: Draw)
    requires AtStage(s, id, i, k)
    ensures var t := Step(s, StageEvents(s.backend, id, k, draw)[0]);
            && t.tasks == s.tasks && t.backend == s.backend
            && Query(id, k, GetTaskStatus(s.backend, id, draw)) in t.driver.inflight
            && t.driver.active == s.driver.active
            && t.driver.retries == (if k == 0 then s.driver.retries else s.driver.retries - multiset{Retry(id, k)})
  {
    FindIndexFirst(s.tasks, id, i);
    StepPoll(s, id, k, draw);
  }

  /** A failed query below the maximum settles on the driver's state. */
  lemma SettleFailedBelow(tasks: seq<Task>, d: Driver, id: string, i: nat, k: nat, e: QueryError)
    requires k < MaxRetries && FirstWith(tasks, id, i)
    requires Query(id, k, Err(e)) in d.inflight
    ensures var p := Settle(tasks, d, Query(id, k, Err(e)));
            && SameShape(tasks, p.tasks) && FirstWith(p.tasks, id, i)
            && Retry(id, k + 1) in p.driver.retries
            && p.tasks[i].retries == k + 1 && p.tasks[i].status == tasks[i].status
            && p.driver.active == d.active
            && p.driver.retries == d.retries + multiset{Retry(id, k + 1)}
  {
  }

  /** A failed query at the maximum settles on the driver's state. */
  lemma SettleFailedAtMax(tasks: seq<Task>, d: Driver, id: string, i: nat, e: QueryError)
    requires FirstWith(tasks, id, i)
    requires Query(id, MaxRetries, Err(e)) in d.inflight
    ensures var p := Settle(tasks, d, Query(id, MaxRetries, Err(e)));
            && SameShape(tasks, p.tasks)
            && p.tasks[i].status == Failed && p.tasks[i].retries == tasks[i].retries
            && id !in p.driver.active
  {
  }

  /** The settling of a failed query of stage `k`. */
  lemma StageSettleFailed(s: Session, id: string, i: nat, k: nat, e: QueryError)
    requires k <= MaxRetries && FirstWith(s.tasks, id, i) && !IsTerminal(s.tasks[i].status)
    requires Query(id, k, Err(e)) in s.driver.inflight
    ensures var t := Step(s, QuerySettles(Query(id, k, Err(e))));
            && t.backend == s.backend && SameShape(s.tasks, t.tasks)
            && (k < MaxRetries ==>
                  && AtStage(t, id, i, k + 1)
                  && t.tasks[i].retries == k + 1 && t.tasks[i].status == s.tasks[i].status
                  && t.driver.active == s.driver.active
                  && t.driver.retries == s.driver.retries + multiset{Retry(id, k + 1)})
            && (k == MaxRetries ==>
                  && t.tasks[i].status == Failed && t.tasks[i].retries == s.tasks[i].retries
                  && id !in t.driver.active)
  {
    var q := Query(id, k, Err(e));
    StepSettle(s, q);
    if k < MaxRetries {
      SettleFailedBelow(s.tasks, s.driver, id, i, k, e);
    } else {
      SettleFailedAtMax(s.tasks, s.driver, id, i, e);
    }
  }

  /** One failing stage: below the maximum it records counter `k + 1` on the
      task, keeps the interval registered and trades the retry it consumed
      for the next one; at the maximum it forces `failed`, keeps
      the retry count and unregisters the id. */
  lemma FailingStage(s: Session, id: string, i: nat, k: nat, draw: Draw)
    requires k <= MaxRetries && AtStage(s, id, i, k)
    requires GetTaskStatus(s.backend, id, draw).Err?
    ensures var t := Run(s, StageEvents(s.backend, id, k, draw));
            && t.backend == s.backend && SameShape(s.tasks, t.tasks)
            && (k < MaxRetries ==>
                  && AtStage(t, id, i, k + 1)
                  && t.tasks[i].retries == k + 1 && t.tasks[i].status == s.tasks[i].status
                  && t.driver.active == s.driver.active
                  && t.driver.retries ==
                       (if k == 0 then s.driver.retries else s.driver.retries - multiset{Retry(id, k)})
                       + multiset{Retry(id, k + 1)})
            && (k == MaxRetries ==>
                  && t.tasks[i].status == Failed && t.tasks[i].retries == s.tasks[i].retries
                  && id !in t.driver.active)
  {
    var es := StageEvents(s.backend, id, k, draw);
    StagePoll(s, id, i, k, draw);
    var s1 := Step(s, es[0]);
    StageSettleFailed(s1, id, i, k, GetTaskStatus(s.backend, id, draw).error);
    RunTwo(s, es[0], es[1]);
    assert es == [es[0], es[1]];
  }

  /** An uninterrupted retry chain (no tick between its stages) whose every
      query fails ends with the task `failed` and unregistered; started from the interval's tick it has written a retry
      count of exactly 3 on the way. */
  lemma {:induction false} FailingChain(s: Session, id: string, i: nat, k: nat, draws: seq<Draw>)
    requires k <= MaxRetries && |draws| == MaxRetries + 1 && AtStage(s, id, i, k)
    requires forall j :: k <= j < |draws| ==> GetTaskStatus(s.backend, id, draws[j]).Err?
    ensures var t := Run(s, ChainUpTo(s.backend, id, k, MaxRetries + 1, draws));
            && t.backend == s.backend
            && t.tasks[i].status == Failed && id !in t.driver.active
            && (k < MaxRetries ==> t.tasks[i].retries == MaxRetries)
            && (k == MaxRetries ==> t.tasks[i].retries == s.tasks[i].retries)
    decreases MaxRetries - k
  {
    var stage := StageEvents(s.backend, id, k, draws[k]);
    var chain := ChainUpTo(s.backend, id, k, MaxRetries + 1, draws);
    FailingStage(s, id, i, k, draws[k]);
    var t1 := Run(s, stage);
    if k < MaxRetries {
      var rest := ChainUpTo(s.backend, id, k + 1, MaxRetries + 1, draws);
      assert chain == stage + rest;
      assert ChainUpTo(t1.backend, id, k + 1, MaxRetries + 1, draws) == rest;
      FailingChain(t1, id, i, k + 1, draws);
      RunAppend(s, stage, rest);
      var t := Run(t1, rest);
      assert Run(s, chain) == t;
    } else {
      assert ChainUpTo(s.backend, id, k + 1, MaxRetries + 1, draws) == [];
      assert chain == stage + [];
      RunAppend(s, stage, []);
      assert Run(s, chain) == Run(t1, []) == t1;
    }
  }

  /** A task the backend marked failed is not failed at once: its query
      rejects like a network error, so the driver runs the whole retry
      chain, four queries in all. Uninterrupted, the chain ends at `failed`
      with 3 retries. */
  lemma BackendFailureRunsWholeChain(s: Session, id: string, i: nat, draws: seq<Draw>)
    requires |draws| == MaxRetries + 1 && AtStage(s, id, i, 0)
    requires id in s.backend.records && s.backend.records[id].status == Failed
    ensures var es := ChainUpTo(s.backend, id, 0, MaxRetries + 1, draws);
            var t := Run(s, es);
            && |es| == 8
            && t.tasks[i].status == Failed && t.tasks[i].retries == MaxRetries
  {
    forall j | 0 <= j < |draws|
      ensures GetTaskStatus(s.backend, id, draws[j]).Err?
    {
      FailedRecordAlwaysRejects(s.backend, id, draws[j]);
    }
    ChainUpToLength(s.backend, id, 0, MaxRetries + 1, draws);
    FailingChain(s, id, i, 0, draws);
  }

  /** Stages `k` to `n - 1` of one retry chain, uninterrupted, with
      `draws[j]` the coin of stage `j`. */
  function ChainUpTo(b: Backend, id: string, k: nat, n: nat, draws: seq<Draw>): seq<Event>
    requires k <= n <= |draws|
    decreases n - k
  {
    if k < n then StageEvents(b, id, k, draws[k]) + ChainUpTo(b, id, k + 1, n, draws) else []
  }

  lemma ChainUpToLength(b: Backend, id: string, k: nat, n: nat, draws: seq<Draw>)
    requires k <= n <= |draws|
    ensures |ChainUpTo(b, id, k, n, draws)| == 2 * (n - k)
    decreases n - k
  {
    if k < n {
      ChainUpToLength(b, id, k + 1, n, draws);
    }
  }

  /** On a task the backend marked failed, the stages of a chain below the
      maximum keep the interval registered and end with the retry of
      counter `n` scheduled. */
  lemma {:induction false} FailingPrefix(s: Session, id: string, i: nat, k: nat, n: nat, draws: seq<Draw>)
    requires k <= n <= MaxRetries && n <= |draws|
    requires AtStage(s, id, i, k) && id in s.driver.active
    requires id in s.backend.records && s.backend.records[id].status == Failed
    ensures var t := Run(s, ChainUpTo(s.backend, id, k, n, draws));
            && t.backend == s.backend && AtStage(t, id, i, n) && id in t.driver.active
    decreases n - k
  {
    var b := s.backend;
    if k < n {
      var stage := StageEvents(b, id, k, draws[k]);
      var rest := ChainUpTo(b, id, k + 1, n, draws);
      FailedRecordAlwaysRejects(b, id, draws[k]);
      FailingStage(s, id, i, k, draws[k]);
      var t1 := Run(s, stage);
      FailingPrefix(t1, id, i, k + 1, n, draws);
      RunAppend(s, stage, rest);
    } else {
      assert Run(s, ChainUpTo(b, id, k, n, draws)) == s;
    }
  }

  /** From there, a failing tick and then the last retry: the tick writes a
      retry count of 1, and the last retry forces `failed` and keeps it. */
  lemma TickThenLastRetry(s: Session, id: string, i: nat, d3: Draw, d4: Draw)
    requires AtStage(s, id, i, 0) && AtStage(s, id, i, MaxRetries)
    requires id in s.backend.records && s.backend.records[id].status == Failed
    ensures var t := Run(Run(s, StageEvents(s.backend, id, 0, d3)), StageEvents(s.backend, id, MaxRetries, d4));
            && t.tasks[i].status == Failed && t.tasks[i].retries == 1
            && id !in t.driver.active
  {
    FailedRecordAlwaysRejects(s.backend, id, d3);
    FailedRecordAlwaysRejects(s.backend, id, d4);
    FailingStage(s, id, i, 0, d3);
    var t4 := Run(s, StageEvents(s.backend, id, 0, d3));
    assert Retry(id, MaxRetries) in t4.driver.retries;
    FailingStage(t4, id, i, MaxRetries, d4);
  }

  /** A retry chain with a tick of the still-registered interval between its
      third and fourth query: stages 0, 1 and 2, the tick's stage 0, then
      the last retry. `draws[j]` is the coin of the j-th query. */
  function TickInChainEvents(b: Backend, id: string, draws: seq<Draw>): seq<Event>
    requires |draws| == MaxRetries + 2
  {
    ChainUpTo(b, id, 0, MaxRetries, draws)
    + StageEvents(b, id, 0, draws[MaxRetries])
    + StageEvents(b, id, MaxRetries, draws[MaxRetries + 1])
  }

  /** The interval keeps running during a retry chain, and a rejected tick
      writes a retry count of 1. On a task the backend marked failed, a tick
      between the third and fourth query leaves the task `failed` with 1
      retry, not 3. */
  lemma TickDuringChainResetsRetries(s: Session, id: string, i: nat, draws: seq<Draw>)
    requires |draws| == MaxRetries + 2 && AtStage(s, id, i, 0)
    requires id in s.backend.records && s.backend.records[id].status == Failed
    ensures var t := Run(s, TickInChainEvents(s.backend, id, draws));
            && t.tasks[i].status == Failed && t.tasks[i].retries == 1
            && id !in t.driver.active
  {
    var b := s.backend;
    var prefix := ChainUpTo(b, id, 0, MaxRetries, draws);
    var tick := StageEvents(b, id, 0, draws[MaxRetries]);
    var last := StageEvents(b, id, MaxRetries, draws[MaxRetries + 1]);
    FailingPrefix(s, id, i, 0, MaxRetries, draws);
    var t3 := Run(s, prefix);
    TickThenLastRetry(t3, id, i, draws[MaxRetries], draws[MaxRetries + 1]);
    RunAppend(s, prefix + tick, last);
    RunAppend(s, prefix, tick);
  }

  /** A first query that finds the backend done with success finishes the
      task: `success`, retry count untouched, interval unregistered. */
  lemma FirstQuerySucceeds(s: Session, id: string, i: nat, draw: Draw)
    requires AtStage(s, id, i, 0)
    requires id in s.backend.records && s.backend.records[id].status == Success && draw >= 0.1
    ensures var t := Run(s, StageEvents(s.backend, id, 0, draw));
            && t.tasks[i].status == Success && t.tasks[i].retries == s.tasks[i].retries
            && id !in t.driver.active
  {
    var es := StageEvents(s.backend, id, 0, draw);
    var q := Query(id, 0, GetTaskStatus(s.backend, id, draw));
    StepPoll(s, id, 0, draw);
    var s1 := Step(s, es[0]);
    assert q in s1.driver.inflight;
    StepSettle(s1, q);
    RunTwo(s, es[0], es[1]);
    assert es == [es[0], es[1]];
  }
}

=== FILE: mock_api.dfy ===
/** The simulated backend: the `mockTasks` store, the completion timers it
    schedules, and its three operations (create, query, cancel). The random
    draws and the clock are parameters. */
module MockApi {
  import opened Wrappers
  import opened Tasks

  /** The backend's status type: every status but `Cancelled`. */
  type TaskStatus = s: Status | s != Cancelled witness Pending

  /** A value of `Math.random()`. */
  type Draw = x: real | 0.0 <= x < 1.0

  /** A timer handle, as `setTimeout` returns it: browsers hand out positive integers. */
  type Handle = n: nat | 0 < n witness 1

  datatype Record = Record(id: string, status: TaskStatus, timer: Option<Handle>)

  /** `task?.timer` tested for truthiness. Handles are positive, so a
      present handle is never the falsy 0 and presence alone decides. */
  predicate Armed(r: Record) {
    r.timer.Some?
  }

  /** The store together with the completion timers still scheduled: `timers`
      maps each pending handle to the task id its callback writes, and
      `nextHandle` is the handle the next `setTimeout` returns. */
  datatype Backend = Backend(records: map<string, Record>, timers: map<Handle, string>, nextHandle: Handle)

  /** The store when the program loads. */
  const Empty := Backend(map[], map[], 1)

  datatype QueryError = NotFound | NetworkError | TaskFailed

  datatype Started = Started(backend: Backend, taskId: string)

  /** The statuses the backend itself ever writes. */
  predicate Reported(s: Status) {
    s == Pending || s == Success || s == Failed
  }

  /** What every store the operations build satisfies: records sit under
      their own id, carry a written status and an armed timer handle, and
      every scheduled callback targets an existing record. */
  predicate Valid(b: Backend) {
    && (forall id :: id in b.records ==>
          && b.records[id].id == id
          && Reported(b.records[id].status)
          && Armed(b.records[id])
          && b.records[id].timer.value < b.nextHandle)
    && (forall h :: h in b.timers ==> h < b.nextHandle && b.timers[h] in b.records)
  }

  lemma EmptyValid()
    ensures Valid(Empty)
  {
  }

  function Digit(d: nat): (c: char)
    requires d < 10
    ensures '0' <= c <= '9'
  {
    (('0' as int) + d) as char
  }

  /** The decimal numeral of `n`, as a template literal prints it. */
  function Decimal(n: nat): (s: string)
    ensures |s| >= 1
    ensures forall i :: 0 <= i < |s| ==> '0' <= s[i] <= '9'
  {
    if n < 10 then [Digit(n)] else Decimal(n / 10) + [Digit(n % 10)]
  }

  /** The id `task_${Date.now()}` created at clock reading `now`. */
  function TaskIdAt(now: nat): string {
    "task_" + Decimal(now)
  }

  lemma {:induction false} DecimalInjective(a: nat, b: nat)
    requires Decimal(a) == Decimal(b)
    ensures a == b
  {
    if a >= 10 && b >= 10 {
      var sa, sb := Decimal(a), Decimal(b);
      assert sa[..|sa| - 1] == Decimal(a / 10);
      assert sb[..|sb| - 1] == Decimal(b / 10);
      DecimalInjective(a / 10, b / 10);
      assert sa[|sa| - 1] == Digit(a % 10);
    } else if a < 10 && b < 10 {
      assert Decimal(a)[0] == Digit(a);
    }
  }

  /** Two uploads get the same id exactly when they read the same clock value. */
  lemma TaskIdAtInjective(a: nat, b: nat)
    ensures TaskIdAt(a) == TaskIdAt(b) <==> a == b
  {
    if TaskIdAt(a) == TaskIdAt(b) {
      assert TaskIdAt(a)[5..] == Decimal(a);
      assert TaskIdAt(b)[5..] == Decimal(b);
      DecimalInjective(a, b);
    }
  }

  /** `startMockUpload`: stores a pending record under the new id, overwriting
      one that has the same id, and schedules its completion timer. */
  function StartMockUpload(b: Backend, now: nat): (r: Started)
    ensures r.taskId == TaskIdAt(now)
    ensures r.backend.records.Keys == b.records.Keys + {r.taskId}
    ensures var rec := r.backend.records[r.taskId];
              rec.id == r.taskId && rec.status == Pending && Armed(rec)
              && rec.timer.value in r.backend.timers && r.backend.timers[rec.timer.value] == r.taskId
    ensures forall id :: id in b.records && id != r.taskId ==> r.backend.records[id] == b.records[id]
    ensures Valid(b) ==> b.timers.Keys < r.backend.timers.Keys
                         && forall h :: h in b.timers ==> r.backend.timers[h] == b.timers[h]
    ensures Valid(b) ==> Valid(r.backend)
  {
    var id := TaskIdAt(now);
    var h := b.nextHandle;
    var rec := Record(id, Pending, Some(h));
    Started(Backend(b.records[id := rec], b.timers[h := id], h + 1), id)
  }

  /** `randomStatus`: the outcome the completion callback writes. */
  function RandomStatus(draw: Draw): TaskStatus {
    if draw > 0.8 then Failed else Success
  }

  /** The completion callback of timer `h`: writes the record's final status.
      A handle that was cleared or already fired does nothing. */
  function Complete(b: Backend, h: Handle, draw: Draw): (r: Backend)
    ensures h !in b.timers ==> r == b
    ensures h !in r.timers && r.timers == b.timers - {h}
    ensures r.records.Keys == b.records.Keys && r.nextHandle == b.nextHandle
    ensures h in b.timers && b.timers[h] in b.records ==>
              var rec := r.records[b.timers[h]];
              && (rec.status == Success || rec.status == Failed)
              && (rec.status == Failed <==> draw > 0.8)
              && rec.id == b.records[b.timers[h]].id && rec.timer == b.records[b.timers[h]].timer
    ensures forall id :: id in b.records && (h !in b.timers || id != b.timers[h]) ==>
              r.records[id] == b.records[id]
    ensures Valid(b) ==> Valid(r)
  {
    if h !in b.timers then b
    else
      var id := b.timers[h];
      var timers := b.timers - {h};
      if id in b.records then
        Backend(b.records[id := b.records[id].(status := RandomStatus(draw))], timers, b.nextHandle)
      else
        b.(timers := timers)
  }

  /** `getTaskStatus` with `draw` as its network coin. The store is an input
      only: a query never changes it. */
  function GetTaskStatus(b: Backend, id: string, draw: Draw): (r: Result<TaskStatus, QueryError>)
    ensures id !in b.records ==> r == Err(NotFound)
    ensures r == Err(NetworkError) <==> id in b.records && draw < 0.1
    ensures r == Err(TaskFailed) <==> id in b.records && draw >= 0.1 && b.records[id].status == Failed
    ensures r.Ok? <==> id in b.records && draw >= 0.1 && b.records[id].status != Failed
    ensures r.Ok? ==> r.value == b.records[id].status && r.value != Failed
  {
    if id !in b.records then Err(NotFound)
    else if draw < 0.1 then Err(NetworkError)
    else if b.records[id].status == Failed then Err(TaskFailed)
    else Ok(b.records[id].status)
  }

  /** A record the backend marked failed is never reported as a resolved
      status: every query of it rejects. */
  lemma FailedRecordAlwaysRejects(b: Backend, id: string, draw: Draw)
    requires id in b.records && b.records[id].status == Failed
    ensures GetTaskStatus(b, id, draw).Err?
  {
  }

  /** `cancelMockTask`: when the record's timer field is set, clears that
      timer and forces the record to failed; otherwise nothing. */
  function CancelMockTask(b: Backend, id: string): (r: Backend)
    ensures id !in b.records || !Armed(b.records[id]) ==> r == b
    ensures id in b.records && Armed(b.records[id]) ==>
              && id in r.records && r.records[id] == b.records[id].(status := Failed)
              && r.timers == b.timers - {b.records[id].timer.value}
    ensures r.records.Keys == b.records.Keys && r.nextHandle == b.nextHandle
    ensures forall k :: k in b.records && k != id ==> r.records[k] == b.records[k]
    ensures Valid(b) ==> Valid(r)
  {
    if id in b.records && Armed(b.records[id]) then
      var rec := b.records[id];
      Backend(b.records[id := rec.(status := Failed)], b.timers - {rec.timer.value}, b.nextHandle)
    else b
  }

  /** Cancelling twice is cancelling once. */
  lemma CancelMockTaskIdempotent(b: Backend, id: string)
    ensures CancelMockTask(CancelMockTask(b, id), id) == CancelMockTask(b, id)
  {
  }

  /** The timer field is never cleared, so in every valid store a cancel
      forces a known record to failed even after its completion fired. */
  lemma CancelOverwritesCompleted(b: Backend, id: string)
    requires Valid(b) && id in b.records
    ensures CancelMockTask(b, id).records[id].status == Failed
  {
  }

  /** One create, completion and cancel: the record ends failed though its
      completion had already written success. */
  lemma CancelAfterSuccess(now: nat, draw: Draw)
    requires draw <= 0.8
    ensures var started := StartMockUpload(Empty, now);
            var done := Complete(started.backend, 1, draw);
            && done.records[started.taskId].status == Success
            && CancelMockTask(done, started.taskId).records[started.taskId].status == Failed
  {
    var started := StartMockUpload(Empty, now);
    assert started.backend.timers == map[1 := started.taskId];
  }
}

=== FILE: polling.dfy ===
/** The polling hook: a registry of ids with a running interval, the one-shot
    retries it has scheduled, and the poll steps suspended on a backend query.
    Each poll step is split at its `await`: `Poll` checks liveness and issues
    the query, `Settle` applies the answer later without checking again. */
module Polling {
  import opened Wrappers
  import opened Tasks
  import opened MockApi

  /** The highest retry counter; a failed query at this counter gives up. */
  const MaxRetries: nat := 3

  /** A scheduled one-shot re-attempt `poll(count)`. */
  datatype Retry = Retry(id: string, count: nat)

  /** A poll step with counter `count` suspended on its query for `id`. The
      backend fixed `answer` when the query was issued. */
  datatype Query = Query(id: string, count: nat, answer: Result<TaskStatus, QueryError>)

  /** `active`: ids whose recurring interval runs; `retries`: one-shot timers
      not yet fired; `inflight`: poll steps waiting for their answer. */
  datatype Driver = Driver(active: set<string>, retries: multiset<Retry>, inflight: multiset<Query>)

  const Idle := Driver({}, multiset{}, multiset{})

  /** The task list and the driver after a step that may write both. */
  datatype Polled = Polled(tasks: seq<Task>, driver: Driver)

  /** `startPolling`: starts the recurring interval for `id` and registers it. */
  function StartPolling(d: Driver, id: string): (r: Driver)
    ensures id in r.active
    ensures forall other :: other != id ==> (other in r.active <==> other in d.active)
    ensures r.retries == d.retries && r.inflight == d.inflight
  {
    d.(active := d.active + {id})
  }

  /** `poll(count)` up to its `await`. When the task is absent or terminal it
      unregisters the id and issues nothing; otherwise it issues one query.
      It never writes the task list. */
  function Poll(tasks: seq<Task>, d: Driver, b: Backend, id: string, count: nat, draw: Draw): (r: Driver)
    ensures r.retries == d.retries
    ensures |r.inflight| == |d.inflight| + (if IsLive(tasks, id) then 1 else 0)
    ensures !IsLive(tasks, id) ==> r.inflight == d.inflight && r.active == d.active - {id}
    ensures IsLive(tasks, id) ==>
              && r.active == d.active
              && r.inflight == d.inflight + multiset{Query(id, count, GetTaskStatus(b, id, draw))}
  {
    if !IsLive(tasks, id) then d.(active := d.active - {id})
    else d.(inflight := d.inflight + multiset{Query(id, count, GetTaskStatus(b, id, draw))})
  }

  /** A tick of the recurring interval runs `poll()` with counter 0. */
  function Tick(tasks: seq<Task>, d: Driver, b: Backend, id: string, draw: Draw): (r: Driver)
    requires id in d.active
    ensures r.retries == d.retries
    ensures IsLive(tasks, id) ==>
              r.active == d.active
              && r.inflight == d.inflight + multiset{Query(id, 0, GetTaskStatus(b, id, draw))}
    ensures !IsLive(tasks, id) ==> r.inflight == d.inflight && r.active == d.active - {id}
  {
    Poll(tasks, d, b, id, 0, draw)
  }

  /** A one-shot retry fires: it leaves the pending set and runs `poll(count)`. */
  function FireRetry(tasks: seq<Task>, d: Driver, b: Backend, rt: Retry, draw: Draw): (r: Driver)
    requires rt in d.retries
    ensures r.retries == d.retries - multiset{rt}
    ensures IsLive(tasks, rt.id) ==>
              r.active == d.active
              && r.inflight == d.inflight + multiset{Query(rt.id, rt.count, GetTaskStatus(b, rt.id, draw))}
    ensures !IsLive(tasks, rt.id) ==> r.inflight == d.inflight && r.active == d.active - {rt.id}
  {
    Poll(tasks, d.(retries := d.retries - multiset{rt}), b, rt.id, rt.count, draw)
  }

  /** `poll(count)` after its `await`: applies the answer to every task with
      the id, stops the interval on a final answer or on exhaustion, and
      schedules one retry below the maximum. Liveness is not checked again. */
  function Settle(tasks: seq<Task>, d: Driver, q: Query): (r: Polled)
    requires q in d.inflight
    ensures r.driver.inflight == d.inflight - multiset{q}
    ensures SameShape(tasks, r.tasks) && OthersUnchanged(tasks, r.tasks, q.id)
    ensures q.answer.Ok? ==>
              && (forall i :: 0 <= i < |tasks| && tasks[i].id == q.id ==>
                    r.tasks[i].status == q.answer.value && r.tasks[i].retries == tasks[i].retries)
              && r.driver.retries == d.retries
              && (q.answer.value == Success || q.answer.value == Failed ==> r.driver.active == d.active - {q.id})
              && (q.answer.value == Pending || q.answer.value == Processing ==> r.driver.active == d.active)
    ensures q.answer.Err? && q.count < MaxRetries ==>
              && (forall i :: 0 <= i < |tasks| && tasks[i].id == q.id ==>
                    r.tasks[i].retries == q.count + 1 && r.tasks[i].status == tasks[i].status)
              && r.driver.retries == d.retries + multiset{Retry(q.id, q.count + 1)}
              && r.driver.active == d.active
    ensures q.answer.Err? && q.count >= MaxRetries ==>
              && (forall i :: 0 <= i < |tasks| && tasks[i].id == q.id ==>
                    r.tasks[i].status == Failed && r.tasks[i].retries == tasks[i].retries)
              && r.driver.retries == d.retries
              && r.driver.active == d.active - {q.id}
  {
    var d' := d.(inflight := d.inflight - multiset{q});
    match q.answer
    case Ok(status) =>
      var active := if status == Success || status == Failed then d'.active - {q.id} else d'.active;
      Polled(WithStatus(tasks, q.id, status), d'.(active := active))
    case Err(_) =>
      if q.count < MaxRetries then
        Polled(WithRetries(tasks, q.id, q.count + 1),
               d'.(retries := d'.retries + multiset{Retry(q.id, q.count + 1)}))
      else
        Polled(WithStatus(tasks, q.id, Failed), d'.(active := d'.active - {q.id}))
  }

  /** `cancelPolling`: stops and unregisters the interval of `id` only. */
  function CancelPolling(d: Driver, id: string): (r: Driver)
    ensures id !in r.active
    ensures forall other :: other != id ==> (other in r.active <==> other in d.active)
    ensures r.retries == d.retries && r.inflight == d.inflight
  {
    d.(active := d.active - {id})
  }

  lemma CancelPollingIdempotent(d: Driver, id: string)
    ensures CancelPolling(CancelPolling(d, id), id) == CancelPolling(d, id)
  {
  }

  /** The unmount cleanup: clears every interval. Scheduled retries and
      suspended queries are not timers it knows of, so they survive. */
  function Teardown(d: Driver): (r: Driver)
    ensures forall id :: id !in r.active
    ensures r.retries == d.retries && r.inflight == d.inflight
  {
    d.(active := {})
  }
}

=== FILE: tasks.dfy ===
/** The task list the upload component renders and the polling hook updates:
    one record per submitted file, in submission order. */
module Tasks {
  import opened Wrappers

  /** Every status a task in the list can show. The backend only reports the
      first four; `Cancelled` is written by the component alone. */
  datatype Status = Pending | Processing | Success | Failed | Cancelled

  /** The statuses after which a poll step stops polling. */
  predicate IsTerminal(s: Status) {
    s == Success || s == Failed || s == Cancelled
  }

  datatype Task = Task(id: string, filename: string, status: Status, retries: nat)

  /** Index of the first task carrying `id`, the one `Array.prototype.find` returns. */
  function FindIndex(tasks: seq<Task>, id: string): (r: Option<nat>)
    ensures r.Some? ==> r.value < |tasks| && tasks[r.value].id == id
    ensures r.Some? ==> forall j :: 0 <= j < r.value ==> tasks[j].id != id
    ensures r.None? <==> forall j :: 0 <= j < |tasks| ==> tasks[j].id != id
  {
    if |tasks| == 0 then None
    else if tasks[0].id == id then Some(0)
    else match FindIndex(tasks[1..], id)
      case None => None
      case Some(k) => Some(k + 1)
  }

  /** `i` is the index of the first task carrying `id`. */
  predicate FirstWith(tasks: seq<Task>, id: string, i: nat) {
    i < |tasks| && tasks[i].id == id && forall j :: 0 <= j < i ==> tasks[j].id != id
  }

  /** The lookup returns exactly the first task carrying the id. */
  lemma FindIndexFirst(tasks: seq<Task>, id: string, i: nat)
    ensures FindIndex(tasks, id) == Some(i) <==> FirstWith(tasks, id, i)
  {
  }

  /** The liveness test of a poll step: the task the lookup finds exists and
      has not reached a terminal status. */
  predicate IsLive(tasks: seq<Task>, id: string) {
    match FindIndex(tasks, id)
    case None => false
    case Some(i) => !IsTerminal(tasks[i].status)
  }

  /** The liveness test in plain terms: some task carries the id, no earlier
      task does, and its status is not terminal. */
  lemma IsLiveIff(tasks: seq<Task>, id: string)
    ensures IsLive(tasks, id) <==>
              exists i :: 0 <= i < |tasks| && tasks[i].id == id && !IsTerminal(tasks[i].status)
                          && forall j :: 0 <= j < i ==> tasks[j].id != id
  {
    if IsLive(tasks, id) {
      var i := FindIndex(tasks, id).value;
      assert tasks[i].id == id && !IsTerminal(tasks[i].status);
    }
  }

  /** Two lists of equal length holding the same ids and file names, position by position. */
  predicate SameShape(a: seq<Task>, b: seq<Task>) {
    && |a| == |b|
    && forall i :: 0 <= i < |a| ==> a[i].id == b[i].id && a[i].filename == b[i].filename
  }

  /** Every task of `a` whose id is not `id` is unchanged in `b`. */
  predicate OthersUnchanged(a: seq<Task>, b: seq<Task>, id: string)
    requires |a| == |b|
  {
    forall i :: 0 <= i < |a| && a[i].id != id ==> b[i] == a[i]
  }

  /** `prev.map(t => t.id === id ? { ...t, status } : t)`. */
  function WithStatus(tasks: seq<Task>, id: string, status: Status): (r: seq<Task>)
    ensures SameShape(tasks, r) && OthersUnchanged(tasks, r, id)
    ensures forall i :: 0 <= i < |tasks| && tasks[i].id == id ==>
              r[i].status == status && r[i].retries == tasks[i].retries
  {
    if |tasks| == 0 then []
    else
      var rest := WithStatus(tasks[1..], id, status);
      var head := if tasks[0].id == id then tasks[0].(status := status) else tasks[0];
      assert forall i :: 1 <= i < |tasks| ==> ([head] + rest)[i] == rest[i - 1];
      [head] + rest
  }

  /** `prev.map(t => t.id === id ? { ...t, retries } : t)`. */
  function WithRetries(tasks: seq<Task>, id: string, retries: nat): (r: seq<Task>)
    ensures SameShape(tasks, r) && OthersUnchanged(tasks, r, id)
    ensures forall i :: 0 <= i < |tasks| && tasks[i].id == id ==>
              r[i].retries == retries && r[i].status == tasks[i].status
  {
    if |tasks| == 0 then []
    else
      var rest := WithRetries(tasks[1..], id, retries);
      var head := if tasks[0].id == id then tasks[0].(retries := retries) else tasks[0];
      assert forall i :: 1 <= i < |tasks| ==> ([head] + rest)[i] == rest[i - 1];
      [head] + rest
  }

  /** The lookup depends on the ids alone, so a list update that keeps every
      id in place finds the same task. */
  lemma {:induction false} FindIndexSameShape(a: seq<Task>, b: seq<Task>, id: string)
    requires SameShape(a, b)
    ensures FindIndex(a, id) == FindIndex(b, id)
  {
    if |a| > 0 && a[0].id != id {
      FindIndexSameShape(a[1..], b[1..], id);
    }
  }

  /** Writing the same status twice is writing it once. */
  lemma WithStatusIdempotent(tasks: seq<Task>, id: string, status: Status)
    ensures WithStatus(WithStatus(tasks, id, status), id, status) == WithStatus(tasks, id, status)
  {
    var once := WithStatus(tasks, id, status);
    var twice := WithStatus(once, id, status);
    assert forall i :: 0 <= i < |twice| ==> twice[i] == once[i];
  }
}

=== FILE: wrappers.dfy ===
/** Optional values and settled promises, shared by every module of the model. */
module Wrappers {

  /** A value that may be absent: `undefined` in the program. */
  datatype Option<+T> = None | Some(value: T)

  /** A settled promise: resolved with a value or rejected with an error. */
  datatype Result<+T, +E> = Ok(value: T) | Err(error: E)
}
